=== FILE: README.md ===
# Vertical farming assistant: a Dafny model of the planning pipeline

The vertical farming assistant recommends crops for a small indoor vertical
farm and works out how much seed and water they need. It has three entry
points: a command-line session (`index.js`), an Express server (`server.js`)
and a browser script (`public/js/app.js`). Each one holds its own identical
copy of a three-step pipeline driven by two static tables, a zone table and a
crop table. The browser script reads them from `public/js/data.js`. The
command line and the server load them from `./data` (index.js:4,
server.js:2), a module that is not part of this model. The server and the
browser script add a fourth step:

1. **classify** the temperature and humidity into a climate zone. This is
   the first zone, in table order (tropical, arid, temperate, cold), whose
   inclusive ranges hold both readings. Temperate is the fallback.
2. **select** up to three crops from the zone's ordered list. Crops that need
   daylight are dropped only when the light source is exactly
   `"LED grow lights"` or `"Fluorescent lights"`.
3. **calculate** one record per crop: `floor(space / 0.3)` tiers, seeds per
   tier `ceil(density * area)`, seeds and water multiplied by the tier
   count, and light, nutrients, watering method and harvest time copied
   from the crop profile.
4. **advise** (server.js:340-373 and public/js/app.js:229-262 only): look
   up the climate-control advice for the zone, with temperate as the
   fallback. The command line has no such lookup; its setup instructions
   print their own climate lines (index.js:204-214), and none for temperate.

The model has one shared copy of the pipeline. Each source copy is cited
below.

Modules, one per concern:

- `farm_data.dfy` (`FarmData`): zones and crops as enumerations, the zone
  table and the crop table. `ZoneName`/`CropName` give the string keys;
  `ZoneByName`/`CropByName` model a lookup by key that may be undefined
  (see "## Left out" for inherited object keys).
- `classifier.dfy` (`Classifier`): `FindZone` models `Array.prototype.find`
  over the zone keys. `Classify` adds the temperate fallback.
- `selector.dfy` (`Selector`): the artificial-light filter and the cut to
  three crops.
- `quantities.dfy` (`Quantities`): tiers, ceilings and the per-crop records,
  the per-tier display, and plant spacing as a relation.
- `advice.dfy` (`Advice`): the climate-advice lookup.
- `input.dfy` (`Input`): the answers record and the command-line validators,
  including `String.prototype.trim`.
- `pipeline.dfy` (`Pipeline`): the composed pipeline and end-to-end scenarios.
- `sequences.dfy`, `wrappers.dfy`: order-preserving subsequences, filtering
  and trimming over any predicate, and an option type.

Numbers are exact `real`s and unbounded `int`s. Light sources and zone keys
are the source's strings, compared exactly as the source compares them.

Three facts about the code are worth stating up front:

- (22 °C, 60 %) lies in both the tropical range (20–35 °C, 60–100 %) and the
  temperate range. Tropical is declared first and wins, so the plan grows
  basil, kale and mint (`TropicalScenario`).
- The command-line temperature check is strict, so -50 and 60 are rejected
  (`ValidateTemperature`).
- The light source is a free string compared by equality. Only the exact
  labels `"LED grow lights"` and `"Fluorescent lights"` filter; every other
  string, including `"LED"`, leaves the list unfiltered (`ArtificialOnlyExact`).

With the tables as they stand, the first three crops of every zone grow
under artificial light. The light source therefore never changes the
selection (`RecommendIgnoresLightSource`).

## Model

| member | source | states |
|---|---|---|
| FarmData.Rank | public/js/data.js:5-26 | zones are visited in declaration order tropical, arid, temperate, cold; the rank of a zone is its position in that order |
| FarmData.ZoneName | public/js/data.js:6-21 | the string key of each zone in the zone table |
| FarmData.CropName | public/js/data.js:32-152 | the string key of each crop in the crop table |
| FarmData.ZoneTable | public/js/data.js:5-26 | the zone table: each zone's inclusive temperature and humidity ranges and its ordered crop list, value for value |
| FarmData.Profile | public/js/data.js:31-159 | the crop table: water per square metre and method, seed density and depth, light hours and intensity, nutrients, whether artificial light suffices, and days to harvest, value for value |
| FarmData.ZoneByName | index.js:109 | looking a key up in the zone table: a hit is the zone whose key equals the string |
| FarmData.CropByName | index.js:131 | looking a key up in the crop table: a hit is the crop whose key equals the string |
| FarmData.ZoneNameRoundTrip | public/js/data.js:5-26 | the four zone keys and the four zones correspond one to one: looking up a zone's key finds that zone, and only its own key finds it |
| FarmData.CropNameRoundTrip | public/js/data.js:31-160 | the sixteen crop keys and the crops correspond one to one: looking up a crop's name finds its profile, and only that name does |
| FarmData.ZoneCropsAreKeys | public/js/data.js:9-24 | every name in every zone's crop list is a key of the crop table, so the profile lookups of the selector and the calculator are always defined |
| FarmData.ProfilesPositive | public/js/data.js:32-159 | every crop profile has positive water per day, seed density, seed depth, light hours, light intensity and harvest time |
| FarmData.OnlyFruitingCropsNeedDaylight | public/js/data.js:80-95 | a crop cannot grow under artificial light exactly when it is cherry tomatoes or bell peppers |
| FarmData.ZoneTableWellFormed | public/js/data.js:6-25 | every zone's temperature and humidity ranges have min <= max, and every zone lists at least three crops with no name twice |
| FarmData.LeadingCropsAreArtificial | public/js/data.js:9-24 | the first three crops of every zone's list grow under artificial light |
| Classifier.FindZone | index.js:98-102 | the search finds nothing exactly when no listed zone holds both readings; otherwise the zone it returns holds them and every zone listed before it does not |
| Classifier.InZone | index.js:99-101 | a zone holds a reading when both the temperature and the humidity lie in its inclusive ranges |
| Classifier.Classify | index.js:97-103 | the zone returned holds both readings, or no zone holds them and it is temperate; no zone declared earlier holds the readings (first match wins) |
| Classifier.ClassifyDecisionTable | public/js/app.js:172-178 | closed form over the table's literal bounds: tropical iff 20<=t<=35 and 60<=h<=100; arid iff 25<=t<=45 and 10<=h<=30; cold iff in the cold ranges but not at t=10 with h>=40; temperate in every other case, matched or not |
| Classifier.ZoneOverlaps | public/js/data.js:6-25 | tropical and temperate ranges overlap exactly at 20<=t<=25 and 60<=h<=70, temperate and cold exactly at t=10 and 40<=h<=70, and no other pair of zones overlaps |
| Classifier.ClassifyExamples | server.js:283-289 | (25,65) and (22,60) are tropical, (10,50) is temperate rather than cold, (50,50) falls back to temperate, (30,20) is arid, (0,50) is cold |
| Selector.ArtificialCapable | index.js:113-116 | the filter keeps, in their original order, exactly the crops of the list that grow under artificial light |
| Selector.ArtificialCapableCounts | index.js:113-116 | the filter keeps every occurrence of an artificial-light crop and none of a daylight crop |
| Selector.GrowsUnderLamps | index.js:114-115 | the filter callback: a crop passes when its profile says artificial light suffices |
| Selector.ArtificialOnly | index.js:113 | the list is filtered only when the light source is exactly one of the two artificial labels, compared with `===` |
| Selector.Eligible | index.js:109-116 | the candidate list: the zone's list filtered to artificial-light crops for the two artificial labels, the zone's whole list otherwise |
| Selector.Recommend | index.js:108-120 | at most three crops, a prefix of the candidate list and so an order-preserving subsequence of the zone's list; only artificial-light crops for the two artificial labels; a prefix of the unfiltered zone list for every other light source |
| Sequences.FilterKeepsLeadingRun | server.js:299-302 | filtering a list whose first k elements are kept leaves those k elements as its first k entries |
| Sequences.Filter | index.js:113-116 | an element is kept exactly when it is in the input and satisfies the predicate |
| Sequences.FilterCounts | index.js:113-116 | every occurrence of a kept element survives and no occurrence of a dropped one does |
| Sequences.FilterIsSubsequence | index.js:113-116 | the filter keeps the relative order of the elements it keeps |
| Sequences.Trim | index.js:32 | trimming removes only a leading run and a trailing run of dropped elements; the result is empty exactly when every element is dropped, otherwise it neither starts nor ends with a dropped element |
| Selector.EligibleStartsWithLeadingCrops | server.js:294-305 | for every zone and light source the candidate list has at least three entries and starts with the zone's first three crops |
| Selector.RecommendIgnoresLightSource | public/js/app.js:183-195 | every zone and light source yield exactly three crops, the first three of the zone's list |
| Selector.RecommendExamples | public/js/app.js:185-194 | tropical gives basil, kale, mint; arid gives rosemary, thyme, sage; temperate gives strawberries, lettuce, spinach; cold gives kale, spinach, lettuce; whatever the light source |
| Selector.AridUnderLed | index.js:113-119 | LED light in the arid zone gives rosemary, thyme and sage and never bell peppers |
| Selector.ArtificialOnlyExact | index.js:113 | only the exact strings "LED grow lights" and "Fluorescent lights" filter; "Natural sunlight", "Mixed (natural + artificial)", "LED" and "led grow lights" do not |
| Quantities.Ceil | index.js:132 | Math.ceil returns the least integer not below its argument |
| Quantities.Tiers | index.js:128 | the tier count is the number of whole 0.3 m tiers that fit: tiers*0.3 <= space < (tiers+1)*0.3 |
| Quantities.Area | index.js:127 | the growing area of one tier, width times depth |
| Quantities.SeedsPerTier | index.js:132 | seeds per tier is the least whole number covering density times area, and at least one for a positive area |
| Quantities.PlanFor | index.js:130-147 | a record names its crop, uses the shared tier count, needs seeds per tier times tiers seeds, water daily*area*tiers litres, and copies watering method, light hours, lux, nutrients and harvest time from the profile |
| Quantities.CalculateFarmingParameters | index.js:125-149 | one record per input crop, same length, same order, each naming its input crop and all sharing floor(space/0.3) tiers |
| Quantities.NoTierBelowTierHeight | server.js:314-320 | for non-negative space the tier count is 0 exactly when space < 0.3, and then every record needs 0 seeds and 0 litres |
| Quantities.QuantitiesNonNegative | public/js/app.js:201-209 | positive space, width and depth give a non-negative tier count, at least one seed per tier, seeds at least the tier count and no negative water |
| Quantities.PlansNonNegative | public/js/app.js:200-224 | for positive dimensions every record of a plan has seeds at least its tier count and no negative water |
| Quantities.PerTierSeeds | server.js:122 | with at least one tier, the shown per-tier seeds, total/tiers, with or without Math.ceil, equal ceil(density*area) |
| Quantities.DisplayedTiersMatchPlan | server.js:167 | the tier count shown under farm setup and in the setup instructions (server.js:193), floor(space/0.3), is the tier count of every record |
| Quantities.BasilExample | index.js:126-134 | basil with 2 m height on 1 m by 1 m: 6 tiers, 40 seeds per tier, 240 seeds, 3 litres a day |
| Quantities.LettuceExample | index.js:126-134 | lettuce with 2 m height on 1 m by 1 m: 6 tiers, 25 seeds per tier, 150 seeds, 4.8 litres a day |
| Quantities.SpacingUnique | index.js:145 | the plant spacing, a non-negative cm with cm*cm = 10000/density, is determined uniquely by the crop |
| Quantities.IsSpacing | index.js:145 | `Math.sqrt(10000 / per_sqm)` as a relation: a non-negative spacing whose square is 10000 over the seed density |
| Quantities.LettuceSpacing | server.js:126 | lettuce (25 seeds per m2) is spaced 20 cm apart, and 20 cm is the only such spacing |
| Advice.AdviceEntry | server.js:372 | the advice entry used is the zone the key names, or temperate when the key names no zone |
| Advice.ClimateAdviceOwnKey | server.js:340-373 | each zone's key yields that zone's own advice |
| Advice.AdviceEntryExact | public/js/app.js:229-262 | a key selects a zone's entry exactly when it is that zone's key or, for the temperate entry, when it is no zone key |
| Advice.ZoneAdvice | server.js:341-370 | the five advice items of each zone, in display order |
| Advice.ClimateAdvice | server.js:340-373 | a zone key yields that zone's advice and every other key yields the temperate advice |
| Input.Trim | index.js:32 | trim removes only leading and trailing whitespace; it yields the empty string exactly when the input is all whitespace, otherwise a string that neither starts nor ends with whitespace |
| Input.IsJsWhitespace | index.js:32 | the characters `trim` removes: the ECMAScript WhiteSpace and LineTerminator code points |
| Input.ValidateLocation | index.js:32 | a location is accepted exactly when it holds a non-whitespace character, else rejected with "Location is required" |
| Input.Accepted | index.js:27-73 | answers the prompt hands on: every validator accepted and the light source is one of the four list choices |
| Input.LightChoices | index.js:57 | the four choices of the light-source list prompt, in order |
| Input.ValidateTemperature | index.js:38 | a temperature is accepted exactly when -50 < t < 60 (strict), else rejected with the range message |
| Input.ValidateHumidity | index.js:44 | a humidity is accepted exactly when 0 <= h <= 100, else rejected with the range message |
| Input.ValidatePositive | index.js:51 | space, width and depth are accepted exactly when positive, else rejected with their message (also index.js:64 and 71) |
| Input.AcceptedBounds | index.js:27-73 | the answers the prompt accepts are exactly those with a non-blank location, -50 < t < 60, 0 <= h <= 100, a listed light source and positive space, width and depth |
| Input.TrimExample | index.js:32 | " Oslo\t" trims to "Oslo" |
| Input.LocationExamples | index.js:32 | a padded city name is accepted, a blank one rejected |
| Pipeline.RunPipeline | server.js:106-113 | a plan has the classified zone, echoes the answers, and holds exactly three records for crops taken in order from the zone's list, artificial-light crops only for the artificial labels, all sharing floor(space/0.3) tiers |
| Pipeline.PipelineSteps | server.js:106-113 | the plan's records are those computed for the recommended crops of the classified zone, and its crop list is exactly that recommendation |
| Pipeline.AcceptedAnswersGiveSoundQuantities | index.js:76-82 | for answers the prompt accepts, the tier count is non-negative and every record has seeds at least its tier count and no negative water |
| Pipeline.TropicalScenario | public/js/app.js:20-22 | (22 °C, 60 %) under natural light, 2 m high on 1 m2: tropical, basil, kale, mint, 6 tiers, basil 240 seeds and 3 litres a day |
| Pipeline.TemperateScenario | index.js:76-82 | (15 °C, 50 %) under LED light, 2 m high on 1 m2: temperate, strawberries, lettuce, spinach, lettuce 150 seeds and 4.8 litres a day |

## Left out

- The `./data` module the command line and the server load (index.js:4, server.js:2) is not part of this model. The model assumes it holds the same two tables as `public/js/data.js`, which has no `module.exports` and so cannot be that module.
- Prompting, colours and console output; HTML templating; Express routing; DOM event handling; the unused `axios` import. These are input/output around the pipeline.
- Prompt defaults (space 2, width 1, depth 1). These are supplied by the prompt library.
- The browser and server copies do not validate. HTML form attributes are checked by the browser. The model's pipeline therefore has no precondition, and validation is stated only for the command-line answers.
- `parseFloat` and NaN. A non-numeric answer becomes NaN in the source; the model's inputs are reals.
- IEEE-754 arithmetic. The model computes `floor(space / 0.3)`, `ceil(density * area)` and the water volume exactly. Doubles can give a different floor near multiples of 0.3 and can round the water volume.
- Plant spacing `Math.sqrt(10000 / per_sqm)`. It is stated as a relation (`Quantities.IsSpacing`) with uniqueness, not as a field of the record, because the model has no square root.
- Quantities.PerTierSeeds: stated only for a positive tier count. With zero tiers the source divides zero by zero and shows NaN.
- `toFixed` formatting, the "total growing space" line, and the pixel arithmetic of the tier drawing. These are display only.
- The substring-based lighting advice of the command line (`includes('LED')`). It is console text only.
- The command-line setup instructions (index.js:180-228), including their per-zone climate-control lines. They are console text only and are not the advice table.
- Advice.ClimateAdvice: advice is modelled as the five item texts per zone rather than the HTML `<li>` markup. Keys inherited from `Object.prototype` (such as `"constructor"`) would find a non-advice value in the source; the model treats every non-zone key as falling back to temperate. Zone keys reaching the lookup only ever come from the classifier.
- FarmData.ZoneByName, FarmData.CropByName: return nothing for keys inherited from `Object.prototype` (such as `"constructor"`), where `climateZones[...]` and `cropData[...]` find a non-table value in the source. They are only reached with classifier keys and zone-list names, which are all table keys (`FarmData.ZoneCropsAreKeys`).
- Selector.Recommend: takes a zone, not a key string. In the source an unknown key would throw, but its zone argument only ever comes from the classifier.
- Quantities.CalculateFarmingParameters: takes crops, not name strings. In the source an unknown name would throw on the profile lookup. Names reaching it come from zone lists, whose names are all table keys (`FarmData.ZoneCropsAreKeys`).
- The display fallback `plan.harvestTime || cropData[...].harvestTime`. It never takes its second branch, because every harvest time is positive (`FarmData.ProfilesPositive`).
- Purity and repeatability are not stated as lemmas: every member is a mathematical function, so equal inputs give equal plans.

=== FILE: advice.dfy ===
/** Climate-control advice shown on the results page: five items per
    zone, looked up by zone key, with the temperate advice for any key
    that is not a zone. */
module Advice {
  import opened FarmData

  /** The advice items of a zone, in display order. */
  function ZoneAdvice(z: Zone): seq<string> {
    match z
    case Tropical => [
      "Install good ventilation to prevent mold in high humidity",
      "Consider a dehumidifier if indoor humidity exceeds 80%",
      "Use shade cloth to reduce light intensity during peak hours",
      "Install fans to keep air moving around plants",
      "Monitor for pests common in tropical environments"]
    case Arid => [
      "Use humidity trays or a humidifier to increase local humidity",
      "Install shade cloth to reduce light intensity and heat",
      "Consider adding a misting system on timers",
      "Use water-retaining growing medium",
      "Install thermal insulation to maintain cooler temperatures"]
    case Temperate => [
      "Maintain moderate humidity levels (40-60%)",
      "Ensure good air circulation around plants",
      "Provide supplemental lighting during darker months",
      "Consider heating mats for germination during colder seasons",
      "Rotate crops seasonally for best results"]
    case Cold => [
      "Provide insulation around the structure",
      "Use heat mats under seedlings for germination",
      "Install LED lights that don't generate excessive heat",
      "Consider a small space heater with thermostat",
      "Focus on cold-tolerant crops during winter months"]
  }

  /** The entry `advice[key] || advice['temperate']` picks: the zone named
      by the key, or the temperate zone for every other string. */
  function AdviceEntry(key: string): (z: Zone)
    ensures ZoneName(z) == key || (z == Temperate && ZoneByName(key).None?)
  {
    var r := ZoneByName(key);
    if r.Some? then
      ZoneNameRoundTrip(r.value);
      r.value
    else
      Temperate
  }

  /** The advice items shown for a key: those of the zone the key names,
      and the temperate ones for any key that is not a zone. */
  function ClimateAdvice(key: string): (r: seq<string>)
    ensures ZoneByName(key).Some? ==> r == ZoneAdvice(ZoneByName(key).value)
    ensures ZoneByName(key).None? ==> r == ZoneAdvice(Temperate)
  {
    ZoneAdvice(AdviceEntry(key))
  }

  /** Each zone's own key yields that zone's advice. */
  lemma ClimateAdviceOwnKey(z: Zone)
    ensures ClimateAdvice(ZoneName(z)) == ZoneAdvice(z)
  {
    ZoneNameRoundTrip(z);
  }

  /** A key selects a zone's entry exactly when it is that zone's key, or,
      for the temperate entry, when it is no zone key at all. */
  lemma AdviceEntryExact(z: Zone, key: string)
    ensures AdviceEntry(key) == z <==>
      key == ZoneName(z) || (z == Temperate && ZoneByName(key).None?)
  {
    ZoneNameRoundTrip(z);
  }
}

=== FILE: classifier.dfy ===
/** Climate-zone classification: the first zone of the table, in
    declaration order, whose inclusive ranges hold both readings; the
    temperate zone when none does. */
module Classifier {
  import opened Wrappers
  import opened FarmData

  const DefaultZone: Zone := Temperate

  /** Both readings fall inside the zone's ranges, bounds included. */
  predicate InZone(z: Zone, temperature: real, humidity: real) {
    ZoneTable(z).temp.Contains(temperature) && ZoneTable(z).humidity.Contains(humidity)
  }

  /** The first zone of `zones` holding the readings, if any. */
  function FindZone(zones: seq<Zone>, temperature: real, humidity: real): (r: Option<Zone>)
    ensures r.None? <==> forall j :: 0 <= j < |zones| ==> !InZone(zones[j], temperature, humidity)
    ensures r.Some? ==> InZone(r.value, temperature, humidity)
    ensures r.Some? ==>
      exists k :: 0 <= k < |zones| && zones[k] == r.value &&
        forall j :: 0 <= j < k ==> !InZone(zones[j], temperature, humidity)
  {
    if zones == [] then None
    else if InZone(zones[0], temperature, humidity) then
      Some(zones[0])
    else
      var r := FindZone(zones[1..], temperature, humidity);
      if r.Some? then
        var k :| 0 <= k < |zones[1..]| && zones[1..][k] == r.value &&
          forall j :: 0 <= j < k ==> !InZone(zones[1..][j], temperature, humidity);
        assert zones[k + 1] == r.value;
        assert forall j :: 0 <= j < k + 1 ==> !InZone(zones[j], temperature, humidity) by {
          forall j | 0 <= j < k + 1 ensures !InZone(zones[j], temperature, humidity) {
            if j > 0 { assert zones[j] == zones[1..][j - 1]; }
          }
        }
        r
      else
        assert forall j :: 0 <= j < |zones| ==> !InZone(zones[j], temperature, humidity) by {
          forall j | 0 <= j < |zones| ensures !InZone(zones[j], temperature, humidity) {
            if j > 0 { assert zones[j] == zones[1..][j - 1]; }
          }
        }
        r
  }

  /** The climate zone of a temperature and humidity reading. It holds the
      readings unless no zone does, in which case it is the default zone;
      and no zone declared before it holds the readings. */
  function Classify(temperature: real, humidity: real): (z: Zone)
    ensures InZone(z, temperature, humidity) ||
            (z == DefaultZone && forall w: Zone :: !InZone(w, temperature, humidity))
    ensures forall w: Zone :: Rank(w) < Rank(z) ==> !InZone(w, temperature, humidity)
  {
    var r := FindZone(ZoneOrder, temperature, humidity);
    if r.None? then
      assert forall w: Zone :: !InZone(w, temperature, humidity) by {
        forall w: Zone ensures !InZone(w, temperature, humidity) {
          assert ZoneOrder[Rank(w)] == w;
        }
      }
      r.GetOr(DefaultZone)
    else
      var k :| 0 <= k < |ZoneOrder| && ZoneOrder[k] == r.value &&
        forall j :: 0 <= j < k ==> !InZone(ZoneOrder[j], temperature, humidity);
      assert k == Rank(r.value);
      r.GetOr(DefaultZone)
  }

  /** The classifier as a decision table over the literal ranges of the
      zone table: tropical when its ranges hold; arid when its ranges
      hold; cold when its ranges hold outside the temperate ranges; and
      temperate for everything else, matched or not. */
  lemma ClassifyDecisionTable(t: real, h: real)
    ensures Classify(t, h) == Tropical <==> 20.0 <= t <= 35.0 && 60.0 <= h <= 100.0
    ensures Classify(t, h) == Arid <==> 25.0 <= t <= 45.0 && 10.0 <= h <= 30.0
    ensures Classify(t, h) == Cold <==>
      -10.0 <= t <= 10.0 && 30.0 <= h <= 70.0 && !(t == 10.0 && 40.0 <= h)
    ensures Classify(t, h) == Temperate <==>
      !(20.0 <= t <= 35.0 && 60.0 <= h <= 100.0) &&
      !(25.0 <= t <= 45.0 && 10.0 <= h <= 30.0) &&
      !(-10.0 <= t <= 10.0 && 30.0 <= h <= 70.0 && !(t == 10.0 && 40.0 <= h))
  {
    var z := Classify(t, h);
    assert Rank(Tropical) == 0 && Rank(Arid) == 1 && Rank(Temperate) == 2 && Rank(Cold) == 3;
    assert InZone(z, t, h) || forall w: Zone :: !InZone(w, t, h);
    assert InZone(Tropical, t, h) <==> 20.0 <= t <= 35.0 && 60.0 <= h <= 100.0;
    assert InZone(Arid, t, h) <==> 25.0 <= t <= 45.0 && 10.0 <= h <= 30.0;
    assert InZone(Temperate, t, h) <==> 10.0 <= t <= 25.0 && 40.0 <= h <= 70.0;
    assert InZone(Cold, t, h) <==> -10.0 <= t <= 10.0 && 30.0 <= h <= 70.0;
  }

  /** Which zone ranges overlap: tropical with temperate exactly at
      temperatures 20 to 25 and humidity 60 to 70, temperate with cold
      exactly at temperature 10 and humidity 40 to 70; no other pair. */
  lemma ZoneOverlaps(t: real, h: real)
    ensures InZone(Tropical, t, h) && InZone(Temperate, t, h) <==> 20.0 <= t <= 25.0 && 60.0 <= h <= 70.0
    ensures InZone(Temperate, t, h) && InZone(Cold, t, h) <==> t == 10.0 && 40.0 <= h <= 70.0
    ensures !(InZone(Tropical, t, h) && InZone(Arid, t, h))
    ensures !(InZone(Tropical, t, h) && InZone(Cold, t, h))
    ensures !(InZone(Arid, t, h) && InZone(Temperate, t, h))
    ensures !(InZone(Arid, t, h) && InZone(Cold, t, h))
  {
  }

  /** Tie-breaking and the fallback on concrete readings. */
  lemma ClassifyExamples()
    ensures Classify(25.0, 65.0) == Tropical
    ensures Classify(22.0, 60.0) == Tropical
    ensures Classify(10.0, 50.0) == Temperate
    ensures Classify(50.0, 50.0) == Temperate
    ensures Classify(30.0, 20.0) == Arid
    ensures Classify(0.0, 50.0) == Cold
  {
    ClassifyDecisionTable(25.0, 65.0);
    ClassifyDecisionTable(22.0, 60.0);
    ClassifyDecisionTable(10.0, 50.0);
    ClassifyDecisionTable(50.0, 50.0);
    ClassifyDecisionTable(30.0, 20.0);
    ClassifyDecisionTable(0.0, 50.0);
  }
}

=== FILE: farm_data.dfy ===
/** The two static tables that drive the farming assistant: the climate
    zones, in the order the classifier visits them, and the crop profiles.
    Crops and zones are closed enumerations; `CropName`/`ZoneName` give the
    string keys the tables are indexed by, and `CropByName`/`ZoneByName`
    model looking a string up in the table (undefined when absent). */
module FarmData {
  import opened Wrappers

  datatype Zone = Tropical | Arid | Temperate | Cold

  datatype Crop =
    | Basil | Lettuce | Spinach | Kale | Mint | Strawberries
    | CherryTomatoes | BellPeppers | Microgreens | Cilantro | Arugula
    | Rosemary | Thyme | Sage | Chard | Parsley

  datatype WaterMethod = Drip | Spray

  /** A closed interval: both bounds belong to it. */
  datatype Range = Range(lo: real, hi: real) {
    predicate Contains(x: real) {
      lo <= x <= hi
    }
  }

  /** One entry of the zone table: temperature range in degrees Celsius,
      humidity range in percent, and the crops in suitability order. */
  datatype ZoneDef = ZoneDef(temp: Range, humidity: Range, crops: seq<Crop>)

  /** One entry of the crop table. Water in litres per square metre per
      day, seed density per square metre, seed depth in centimetres, light
      in hours per day and lux, harvest time in days. */
  datatype CropProfile = CropProfile(
    waterDaily: real,
    waterMethod: WaterMethod,
    seedsPerSqm: nat,
    seedDepth: real,
    lightDaily: nat,
    lightLux: nat,
    nutrients: seq<string>,
    artificial: bool,
    harvestTime: nat)

  /** The declaration order of the zone table, which the classifier follows. */
  const ZoneOrder: seq<Zone> := [Tropical, Arid, Temperate, Cold]

  /** Position of a zone in `ZoneOrder`. */
  function Rank(z: Zone): (r: nat)
    ensures r < |ZoneOrder| && ZoneOrder[r] == z
  {
    match z
    case Tropical => 0
    case Arid => 1
    case Temperate => 2
    case Cold => 3
  }

  function ZoneName(z: Zone): string {
    match z
    case Tropical => "tropical"
    case Arid => "arid"
    case Temperate => "temperate"
    case Cold => "cold"
  }

  /** Looking a string key up in a table keyed by zone name. */
  function ZoneByName(s: string): (r: Option<Zone>)
    ensures r.Some? ==> ZoneName(r.value) == s
  {
    if s == ZoneName(Tropical) then Some(Tropical)
    else if s == ZoneName(Arid) then Some(Arid)
    else if s == ZoneName(Temperate) then Some(Temperate)
    else if s == ZoneName(Cold) then Some(Cold)
    else None
  }

  function ZoneTable(z: Zone): ZoneDef {
    match z
    case Tropical =>
      ZoneDef(Range(20.0, 35.0), Range(60.0, 100.0),
              [Basil, Kale, Mint, Spinach, Lettuce, CherryTomatoes, Microgreens, Cilantro])
    case Arid =>
      ZoneDef(Range(25.0, 45.0), Range(10.0, 30.0),
              [Rosemary, Thyme, Sage, CherryTomatoes, BellPeppers, Microgreens, Mint])
    case Temperate =>
      ZoneDef(Range(10.0, 25.0), Range(40.0, 70.0),
              [Strawberries, Lettuce, Spinach, Kale, Basil, Cilantro, Microgreens, Arugula])
    case Cold =>
      ZoneDef(Range(-10.0, 10.0), Range(30.0, 70.0),
              [Kale, Spinach, Lettuce, Microgreens, Mint, Chard, Parsley])
  }

  function CropName(c: Crop): string {
    match c
    case Basil => "Basil"
    case Lettuce => "Lettuce"
    case Spinach => "Spinach"
    case Kale => "Kale"
    case Mint => "Mint"
    case Strawberries => "Strawberries"
    case CherryTomatoes => "Cherry Tomatoes"
    case BellPeppers => "Bell Peppers"
    case Microgreens => "Microgreens"
    case Cilantro => "Cilantro"
    case Arugula => "Arugula"
    case Rosemary => "Rosemary"
    case Thyme => "Thyme"
    case Sage => "Sage"
    case Chard => "Chard"
    case Parsley => "Parsley"
  }

  /** Looking a string key up in the crop table. */
  function CropByName(s: string): (r: Option<Crop>)
    ensures r.Some? ==> CropName(r.value) == s
  {
    if s == CropName(Basil) then Some(Basil)
    else if s == CropName(Lettuce) then Some(Lettuce)
    else if s == CropName(Spinach) then Some(Spinach)
    else if s == CropName(Kale) then Some(Kale)
    else if s == CropName(Mint) then Some(Mint)
    else if s == CropName(Strawberries) then Some(Strawberries)
    else if s == CropName(CherryTomatoes) then Some(CherryTomatoes)
    else if s == CropName(BellPeppers) then Some(BellPeppers)
    else if s == CropName(Microgreens) then Some(Microgreens)
    else if s == CropName(Cilantro) then Some(Cilantro)
    else if s == CropName(Arugula) then Some(Arugula)
    else if s == CropName(Rosemary) then Some(Rosemary)
    else if s == CropName(Thyme) then Some(Thyme)
    else if s == CropName(Sage) then Some(Sage)
    else if s == CropName(Chard) then Some(Chard)
    else if s == CropName(Parsley) then Some(Parsley)
    else None
  }

  function Profile(c: Crop): CropProfile {
    match c
    case Basil =>
      CropProfile(0.5, Drip, 40, 0.6, 6, 15000, ["N-P-K 3-1-2", "Calcium"], true, 28)
    case Lettuce =>
      CropProfile(0.8, Spray, 25, 0.3, 8, 12000, ["N-P-K 4-2-3", "Iron", "Calcium"], true, 35)
    case Spinach =>
      CropProfile(0.7, Drip, 30, 0.5, 5, 10000, ["N-P-K 4-1-2", "Iron", "Magnesium"], true, 40)
    case Kale =>
      CropProfile(0.6, Drip, 20, 0.5, 7, 14000, ["N-P-K 5-3-3", "Calcium", "Magnesium"], true, 50)
    case Mint =>
      CropProfile(0.6, Spray, 15, 0.2, 5, 10000, ["N-P-K 3-1-2", "Iron"], true, 30)
    case Strawberries =>
      CropProfile(0.9, Drip, 8, 0.5, 10, 20000, ["N-P-K 2-3-6", "Calcium", "Magnesium"], true, 60)
    case CherryTomatoes =>
      CropProfile(1.0, Drip, 5, 1.0, 12, 25000, ["N-P-K 5-10-10", "Calcium", "Magnesium", "Sulfur"], false, 75)
    case BellPeppers =>
      CropProfile(0.9, Drip, 6, 0.8, 12, 22000, ["N-P-K 5-10-10", "Calcium", "Magnesium"], false, 80)
    case Microgreens =>
      CropProfile(0.5, Spray, 150, 0.1, 6, 10000, ["N-P-K 2-1-2", "Trace minerals"], true, 14)
    case Cilantro =>
      CropProfile(0.6, Spray, 40, 0.3, 6, 12000, ["N-P-K 3-1-2", "Calcium"], true, 25)
    case Arugula =>
      CropProfile(0.7, Spray, 30, 0.3, 6, 12000, ["N-P-K 3-1-3", "Iron", "Calcium"], true, 30)
    case Rosemary =>
      CropProfile(0.4, Drip, 10, 0.3, 8, 18000, ["N-P-K 2-2-2", "Calcium"], true, 90)
    case Thyme =>
      CropProfile(0.3, Drip, 15, 0.2, 7, 16000, ["N-P-K 2-2-2", "Iron"], true, 60)
    case Sage =>
      CropProfile(0.4, Drip, 10, 0.3, 7, 16000, ["N-P-K 3-1-2", "Calcium"], true, 75)
    case Chard =>
      CropProfile(0.8, Drip, 20, 0.5, 6, 12000, ["N-P-K 4-3-3", "Iron", "Magnesium"], true, 45)
    case Parsley =>
      CropProfile(0.6, Spray, 35, 0.3, 5, 12000, ["N-P-K 3-1-2", "Iron"], true, 40)
  }

  /** Zone keys and zone identifiers are in one-to-one correspondence. */
  lemma ZoneNameRoundTrip(z: Zone)
    ensures ZoneByName(ZoneName(z)) == Some(z)
    ensures forall s :: ZoneByName(s) == Some(z) ==> s == ZoneName(z)
  {
    match z
    case Tropical =>
    case Arid =>
    case Temperate =>
    case Cold =>
  }

  /** Crop keys and crop identifiers are in one-to-one correspondence:
      every crop has exactly one key of the crop table. */
  lemma CropNameRoundTrip(c: Crop)
    ensures CropByName(CropName(c)) == Some(c)
    ensures forall s :: CropByName(s) == Some(c) ==> s == CropName(c)
  {
    CropByNameInverse(c);
  }

  lemma CropByNameInverse(c: Crop)
    ensures CropByName(CropName(c)) == Some(c)
  {
    match c
    case Basil =>
    case Lettuce =>
    case Spinach =>
    case Kale =>
    case Mint =>
    case Strawberries =>
    case CherryTomatoes =>
    case BellPeppers =>
    case Microgreens =>
    case Cilantro =>
    case Arugula =>
    case Rosemary =>
    case Thyme =>
    case Sage =>
    case Chard =>
    case Parsley =>
  }

  /** Every name in a zone's crop list is a key of the crop table, so each
      profile lookup made by the selector and the calculator is defined. */
  lemma ZoneCropsAreKeys(z: Zone, i: nat)
    requires i < |ZoneTable(z).crops|
    ensures CropByName(CropName(ZoneTable(z).crops[i])).Some?
    ensures CropByName(CropName(ZoneTable(z).crops[i])).value == ZoneTable(z).crops[i]
  {
    CropByNameInverse(ZoneTable(z).crops[i]);
  }

  /** Every numeric field of every crop profile is positive. */
  lemma ProfilesPositive(c: Crop)
    ensures Profile(c).waterDaily > 0.0
    ensures Profile(c).seedsPerSqm > 0
    ensures Profile(c).seedDepth > 0.0
    ensures Profile(c).lightDaily > 0
    ensures Profile(c).lightLux > 0
    ensures Profile(c).harvestTime > 0
  {
    match c
    case Basil =>
    case Lettuce =>
    case Spinach =>
    case Kale =>
    case Mint =>
    case Strawberries =>
    case CherryTomatoes =>
    case BellPeppers =>
    case Microgreens =>
    case Cilantro =>
    case Arugula =>
    case Rosemary =>
    case Thyme =>
    case Sage =>
    case Chard =>
    case Parsley =>
  }

  /** Only the two fruiting crops need natural light. */
  lemma OnlyFruitingCropsNeedDaylight(c: Crop)
    ensures !Profile(c).artificial <==> c == CherryTomatoes || c == BellPeppers
  {
    match c
    case Basil =>
    case Lettuce =>
    case Spinach =>
    case Kale =>
    case Mint =>
    case Strawberries =>
    case CherryTomatoes =>
    case BellPeppers =>
    case Microgreens =>
    case Cilantro =>
    case Arugula =>
    case Rosemary =>
    case Thyme =>
    case Sage =>
    case Chard =>
    case Parsley =>
  }

  /** Every zone range is non-empty and every zone lists at least three
      crops, none of them twice. */
  lemma ZoneTableWellFormed(z: Zone)
    ensures ZoneTable(z).temp.lo <= ZoneTable(z).temp.hi
    ensures ZoneTable(z).humidity.lo <= ZoneTable(z).humidity.hi
    ensures |ZoneTable(z).crops| >= 3
    ensures forall i, j :: 0 <= i < j < |ZoneTable(z).crops| ==> ZoneTable(z).crops[i] != ZoneTable(z).crops[j]
  {
    match z
    case Tropical =>
    case Arid =>
    case Temperate =>
    case Cold =>
  }

  /** The first three crops of every zone grow under artificial light. */
  lemma LeadingCropsAreArtificial(z: Zone)
    ensures |ZoneTable(z).crops| >= 3
    ensures forall i :: 0 <= i < 3 ==> Profile(ZoneTable(z).crops[i]).artificial
  {
    match z
    case Tropical =>
    case Arid =>
    case Temperate =>
    case Cold =>
  }
}

=== FILE: input.dfy ===
/** The user's answers and the validators the command-line prompt applies
    to them before the pipeline runs. A validator either accepts an answer
    or rejects it with the message shown to the user. */
module Input {
  import Sequences

  datatype UserInput = UserInput(
    location: string,
    avgTemp: real,
    humidity: real,
    space: real,
    lightSource: string,
    farmWidth: real,
    farmDepth: real)

  datatype Verdict = Accept | Reject(message: string)

  /** The characters `String.prototype.trim` removes: the ECMAScript
      WhiteSpace and LineTerminator code points (tab, line tabulation,
      form feed, space, no-break space, byte order mark, the Unicode space
      separators, line feed, carriage return, line and paragraph separator). */
  predicate IsJsWhitespace(c: char) {
    c in JsWhitespace
  }

  const JsWhitespace: set<char> := {
    '\t', '\n', '\U{000B}', '\U{000C}', '\r', ' ', '\U{00A0}', '\U{1680}',
    '\U{2000}', '\U{2001}', '\U{2002}', '\U{2003}', '\U{2004}', '\U{2005}',
    '\U{2006}', '\U{2007}', '\U{2008}', '\U{2009}', '\U{200A}',
    '\U{2028}', '\U{2029}', '\U{202F}', '\U{205F}', '\U{3000}', '\U{FEFF}'
  }

  /** `String.prototype.trim`: the input without its leading and trailing
      whitespace; it is empty exactly when the input is all whitespace, and
      otherwise neither starts nor ends with whitespace. */
  function Trim(s: string): (r: string)
    ensures r <= Sequences.TrimStart(s, IsJsWhitespace)
    ensures forall i :: |r| <= i < |Sequences.TrimStart(s, IsJsWhitespace)| ==>
      IsJsWhitespace(Sequences.TrimStart(s, IsJsWhitespace)[i])
    ensures r == [] <==> forall i :: 0 <= i < |s| ==> IsJsWhitespace(s[i])
    ensures r != [] ==> !IsJsWhitespace(r[0]) && !IsJsWhitespace(r[|r| - 1])
  {
    Sequences.Trim(s, IsJsWhitespace)
  }

  /** The location must contain something other than whitespace. */
  function ValidateLocation(location: string): (v: Verdict)
    ensures v.Accept? <==> exists i :: 0 <= i < |location| && !IsJsWhitespace(location[i])
    ensures v.Reject? ==> v.message == "Location is required"
  {
    if Trim(location) != [] then Accept else Reject("Location is required")
  }

  /** The temperature must lie strictly between -50 and 60 degrees. */
  function ValidateTemperature(t: real): (v: Verdict)
    ensures v.Accept? ==> -50.0 < t < 60.0
    ensures v.Reject? ==> t <= -50.0 || 60.0 <= t
    ensures v.Reject? ==> v.message == "Temperature must be between -50\U{00B0}C and 60\U{00B0}C"
  {
    if t > -50.0 && t < 60.0 then Accept
    else Reject("Temperature must be between -50\U{00B0}C and 60\U{00B0}C")
  }

  /** The humidity must lie between 0 and 100 percent, both included. */
  function ValidateHumidity(h: real): (v: Verdict)
    ensures v.Accept? ==> 0.0 <= h <= 100.0
    ensures v.Reject? ==> h < 0.0 || 100.0 < h
    ensures v.Reject? ==> v.message == "Humidity must be between 0 and 100%"
  {
    if h >= 0.0 && h <= 100.0 then Accept
    else Reject("Humidity must be between 0 and 100%")
  }

  /** A dimension (vertical space, width or depth) must be positive; the
      message names the dimension. */
  function ValidatePositive(x: real, message: string): (v: Verdict)
    ensures v.Accept? ==> x > 0.0
    ensures v.Reject? ==> x <= 0.0 && v.message == message
  {
    if x > 0.0 then Accept else Reject(message)
  }

  /** The choices of the light-source list prompt. */
  const LightChoices: seq<string> :=
    ["Natural sunlight", "LED grow lights", "Fluorescent lights", "Mixed (natural + artificial)"]

  /** Answers the command-line prompt can hand to the pipeline: each
      validated answer was accepted and the light source is a list choice. */
  predicate Accepted(input: UserInput) {
    && ValidateLocation(input.location).Accept?
    && ValidateTemperature(input.avgTemp).Accept?
    && ValidateHumidity(input.humidity).Accept?
    && ValidatePositive(input.space, "Space must be positive").Accept?
    && input.lightSource in LightChoices
    && ValidatePositive(input.farmWidth, "Width must be positive").Accept?
    && ValidatePositive(input.farmDepth, "Depth must be positive").Accept?
  }

  /** Accepted answers are exactly those inside the prompt's bounds. */
  lemma AcceptedBounds(input: UserInput)
    ensures Accepted(input) <==>
      && (exists i :: 0 <= i < |input.location| && !IsJsWhitespace(input.location[i]))
      && -50.0 < input.avgTemp < 60.0
      && 0.0 <= input.humidity <= 100.0
      && input.space > 0.0
      && input.lightSource in LightChoices
      && input.farmWidth > 0.0
      && input.farmDepth > 0.0
  {
  }

  /** Trimming cuts the padding on both sides. */
  lemma TrimExample()
    ensures Trim(" Oslo\t") == "Oslo"
  {
    TrimStartExample();
    TrimEndExample();
  }

  lemma TrimStartExample()
    ensures Sequences.TrimStart(" Oslo\t", IsJsWhitespace) == "Oslo\t"
  {
    assert " Oslo\t"[0] == ' ' && IsJsWhitespace(' ');
    assert " Oslo\t"[1..] == "Oslo\t";
    assert "Oslo\t"[0] == 'O' && !IsJsWhitespace('O');
    assert Sequences.TrimStart("Oslo\t", IsJsWhitespace) == "Oslo\t";
  }

  lemma TrimEndExample()
    ensures Sequences.TrimEnd("Oslo\t", IsJsWhitespace) == "Oslo"
  {
    assert "Oslo\t"[4] == '\t' && IsJsWhitespace('\t');
    assert "Oslo\t"[..4] == "Oslo";
    assert "Oslo"[3] == 'o' && !IsJsWhitespace('o');
    assert Sequences.TrimEnd("Oslo", IsJsWhitespace) == "Oslo";
  }

  /** A padded name is accepted; blanks alone are rejected. */
  lemma LocationExamples()
    ensures ValidateLocation("  Tokyo\t").Accept?
    ensures ValidateLocation(" \n ").Reject?
  {
    assert !IsJsWhitespace("  Tokyo\t"[2]);
    assert forall i :: 0 <= i < 3 ==> IsJsWhitespace(" \n "[i]);
  }
}

=== FILE: pipeline.dfy ===
/** The whole computation behind one request: classify the readings,
    select the crops, compute a record per crop, and package the zone, the
    answers and the records into one plan. */
module Pipeline {
  import opened FarmData
  import opened Classifier
  import opened Selector
  import opened Input
  import opened Quantities
  import opened Sequences

  datatype FarmingPlan = FarmingPlan(zone: Zone, input: UserInput, plans: seq<CropPlan>)

  /** The crops of a list of records, in order. */
  function CropsOf(plans: seq<CropPlan>): (r: seq<Crop>)
    ensures |r| == |plans| && forall i :: 0 <= i < |r| ==> r[i] == plans[i].crop
  {
    seq(|plans|, i requires 0 <= i < |plans| => plans[i].crop)
  }

  /** The plan for one set of answers. It has exactly three records, for
      crops taken in order from the zone's list, artificial-light crops only
      when the light source asks for them, all sharing one tier count. */
  function RunPipeline(input: UserInput): (p: FarmingPlan)
    ensures p.zone == Classify(input.avgTemp, input.humidity) && p.input == input
    ensures |p.plans| == MaxRecommended
    ensures IsSubsequence(CropsOf(p.plans), ZoneTable(p.zone).crops)
    ensures ArtificialOnly(input.lightSource) ==>
      forall i :: 0 <= i < |p.plans| ==> Profile(p.plans[i].crop).artificial
    ensures forall i :: 0 <= i < |p.plans| ==> p.plans[i].tiers == Tiers(input.space)
  {
    var zone := Classify(input.avgTemp, input.humidity);
    var crops := Recommend(zone, input.lightSource);
    var plans := CalculateFarmingParameters(crops, input);
    RecommendIgnoresLightSource(zone, input.lightSource);
    assert CropsOf(plans) == crops;
    assert forall i :: 0 <= i < |crops| ==> crops[i] in crops;
    FarmingPlan(zone, input, plans)
  }

  /** Answers the prompt accepts yield sound quantities: a non-negative
      tier count, at least one seed per tier, and no negative water. */
  lemma AcceptedAnswersGiveSoundQuantities(input: UserInput)
    requires Accepted(input)
    ensures Tiers(input.space) >= 0
    ensures forall p :: p in RunPipeline(input).plans ==> p.totalSeeds >= p.tiers && p.waterPerDay >= 0.0
  {
    AcceptedBounds(input);
    var crops := Recommend(Classify(input.avgTemp, input.humidity), input.lightSource);
    PlansNonNegative(crops, input);
  }

  /** 22 degrees and 60 percent humidity lie in both the tropical and the
      temperate ranges; the tropical zone, declared first, wins. Under
      natural light on one square metre with 2 m of height the plan grows
      basil, kale and mint on 6 tiers, basil needing 240 seeds and 3 litres
      of water a day. */
  lemma TropicalScenario(location: string)
    ensures var p := RunPipeline(UserInput(location, 22.0, 60.0, 2.0, NaturalLabel, 1.0, 1.0));
      && p.zone == Tropical
      && CropsOf(p.plans) == [Basil, Kale, Mint]
      && p.plans[0].tiers == 6
      && p.plans[0].totalSeeds == 240
      && p.plans[0].waterPerDay == 3.0
  {
    var input := UserInput(location, 22.0, 60.0, 2.0, NaturalLabel, 1.0, 1.0);
    ClassifyDecisionTable(22.0, 60.0);
    RecommendExamples(Tropical, NaturalLabel);
    PipelineSteps(input);
    BasilExample(location, 22.0, 60.0, NaturalLabel);
  }

  /** A temperate reading under LED light on one square metre with 2 m of
      height: strawberries, lettuce and spinach, lettuce needing 150 seeds
      and 4.8 litres of water a day. */
  lemma TemperateScenario(location: string)
    ensures var p := RunPipeline(UserInput(location, 15.0, 50.0, 2.0, LedLabel, 1.0, 1.0));
      && p.zone == Temperate
      && CropsOf(p.plans) == [Strawberries, Lettuce, Spinach]
      && p.plans[1].totalSeeds == 150
      && p.plans[1].waterPerDay == 4.8
  {
    var input := UserInput(location, 15.0, 50.0, 2.0, LedLabel, 1.0, 1.0);
    ClassifyDecisionTable(15.0, 50.0);
    RecommendExamples(Temperate, LedLabel);
    PipelineSteps(input);
    LettuceExample(location, 15.0, 50.0, LedLabel);
  }

  /** The plan's records are those of the recommended crops, and its crops
      are exactly those crops. */
  lemma PipelineSteps(input: UserInput)
    ensures var crops := Recommend(Classify(input.avgTemp, input.humidity), input.lightSource);
      && RunPipeline(input).plans == CalculateFarmingParameters(crops, input)
      && CropsOf(RunPipeline(input).plans) == crops
  {
    var crops := Recommend(Classify(input.avgTemp, input.humidity), input.lightSource);
    assert CropsOf(CalculateFarmingParameters(crops, input)) == crops;
  }
}

=== FILE: quantities.dfy ===
/** The per-crop quantities of a farming plan: how many tiers fit in the
    vertical space, how many seeds and how much water each crop needs
    across all tiers, and the values copied from the crop profile.
    Arithmetic is on exact reals; see the README for what that leaves out. */
module Quantities {
  import opened FarmData
  import opened Input

  /** Height of one growing tier, in metres. */
  const TierHeight: real := 0.3

  /** `Math.ceil`: the least integer not below `x`. */
  function Ceil(x: real): (r: int)
    ensures (r - 1) as real < x <= r as real
  {
    -((-x).Floor)
  }

  /** `Math.floor(space / 0.3)`: the number of whole tiers that fit. */
  function Tiers(space: real): (n: int)
    ensures n as real * TierHeight <= space < (n + 1) as real * TierHeight
  {
    (space / TierHeight).Floor
  }

  /** The growing area of one tier, in square metres. */
  function Area(input: UserInput): real {
    input.farmWidth * input.farmDepth
  }

  /** Seeds for one tier: the seed density over the area, rounded up to a
      whole seed. */
  function SeedsPerTier(c: Crop, area: real): (n: int)
    ensures (n - 1) as real < Profile(c).seedsPerSqm as real * area <= n as real
    ensures area > 0.0 ==> n >= 1
  {
    ProfilesPositive(c);
    Ceil(Profile(c).seedsPerSqm as real * area)
  }

  /** One record of the plan. `tiers` is shared by all records of a plan. */
  datatype CropPlan = CropPlan(
    crop: Crop,
    tiers: int,
    totalSeeds: int,
    waterPerDay: real,
    waterMethod: WaterMethod,
    lightHours: nat,
    lightIntensity: nat,
    nutrients: seq<string>,
    harvestTime: nat)

  /** The record for one crop: seeds for every tier, water for the area of
      every tier, everything else as the crop profile states it. */
  function PlanFor(c: Crop, input: UserInput): (p: CropPlan)
    ensures p.crop == c && p.tiers == Tiers(input.space)
    ensures p.totalSeeds == SeedsPerTier(c, Area(input)) * p.tiers
    ensures p.waterPerDay == Profile(c).waterDaily * Area(input) * p.tiers as real
    ensures && p.waterMethod == Profile(c).waterMethod
            && p.lightHours == Profile(c).lightDaily
            && p.lightIntensity == Profile(c).lightLux
            && p.nutrients == Profile(c).nutrients
            && p.harvestTime == Profile(c).harvestTime
  {
    var data := Profile(c);
    var area := Area(input);
    var tiers := Tiers(input.space);
    var seedsPerTier := SeedsPerTier(c, area);
    CropPlan(c, tiers, seedsPerTier * tiers, data.waterDaily * area * tiers as real,
             data.waterMethod, data.lightDaily, data.lightLux, data.nutrients, data.harvestTime)
  }

  /** One record per crop, in the order given, all with the same tier count. */
  function CalculateFarmingParameters(crops: seq<Crop>, input: UserInput): (r: seq<CropPlan>)
    ensures |r| == |crops|
    ensures forall i :: 0 <= i < |r| ==> r[i].crop == crops[i]
    ensures forall i :: 0 <= i < |r| ==> r[i].tiers == Tiers(input.space)
    ensures forall i :: 0 <= i < |r| ==> r[i] == PlanFor(crops[i], input)
  {
    seq(|crops|, i requires 0 <= i < |crops| => PlanFor(crops[i], input))
  }

  /** Below one tier height no tier fits, so nothing is sown or watered;
      from one tier height on at least one tier fits. */
  lemma {:induction false} NoTierBelowTierHeight(crops: seq<Crop>, input: UserInput)
    requires 0.0 <= input.space
    ensures Tiers(input.space) == 0 <==> input.space < TierHeight
    ensures input.space < TierHeight ==>
      forall i :: 0 <= i < |crops| ==>
        CalculateFarmingParameters(crops, input)[i].totalSeeds == 0 &&
        CalculateFarmingParameters(crops, input)[i].waterPerDay == 0.0
  {
  }

  /** Positive dimensions give a non-negative tier count, at least one seed
      per tier, and no negative water. */
  lemma QuantitiesNonNegative(c: Crop, input: UserInput)
    requires input.space > 0.0 && input.farmWidth > 0.0 && input.farmDepth > 0.0
    ensures Tiers(input.space) >= 0
    ensures SeedsPerTier(c, Area(input)) >= 1
    ensures PlanFor(c, input).totalSeeds >= PlanFor(c, input).tiers
    ensures PlanFor(c, input).waterPerDay >= 0.0
  {
    assert Area(input) > 0.0;
    ProfilesPositive(c);
    var w := Profile(c).waterDaily * Area(input);
    assert w > 0.0;
    AtLeastOnce(SeedsPerTier(c, Area(input)), Tiers(input.space));
  }

  /** A plan for positive dimensions has a non-negative tier count, and
      every record at least one seed per tier and no negative water. */
  lemma {:induction false} PlansNonNegative(crops: seq<Crop>, input: UserInput)
    requires input.space > 0.0 && input.farmWidth > 0.0 && input.farmDepth > 0.0
    ensures Tiers(input.space) >= 0
    ensures forall p :: p in CalculateFarmingParameters(crops, input) ==>
      p.totalSeeds >= p.tiers && p.waterPerDay >= 0.0
  {
    var plans := CalculateFarmingParameters(crops, input);
    forall p | p in plans ensures p.totalSeeds >= p.tiers && p.waterPerDay >= 0.0 {
      var i :| 0 <= i < |plans| && plans[i] == p;
      QuantitiesNonNegative(crops[i], input);
    }
  }

  /** The per-tier seed count shown next to the total: the total divided by
      the tier count is the seeds of one tier, also after `Math.ceil`. It is
      only stated for a positive tier count. */
  lemma PerTierSeeds(c: Crop, input: UserInput)
    requires Tiers(input.space) > 0
    ensures (PlanFor(c, input).totalSeeds as real) / (PlanFor(c, input).tiers as real)
            == SeedsPerTier(c, Area(input)) as real
    ensures Ceil((PlanFor(c, input).totalSeeds as real) / (PlanFor(c, input).tiers as real))
            == SeedsPerTier(c, Area(input))
  {
    var p := PlanFor(c, input);
    var s := SeedsPerTier(c, Area(input));
    var t := p.tiers;
    DivideProduct(s, t);
  }

  /** The tier count the results page shows under farm setup and in the
      setup instructions is the tier count of every record of the plan. */
  lemma DisplayedTiersMatchPlan(crops: seq<Crop>, input: UserInput)
    ensures forall p :: p in CalculateFarmingParameters(crops, input) ==>
      p.tiers == (input.space / 0.3).Floor
  {
  }

  /** The lettuce record for 2 m of height on one square metre: 6 tiers,
      25 seeds per tier, 150 seeds and 4.8 litres a day. */
  lemma LettuceExample(location: string, t: real, h: real, light: string)
    ensures var p := PlanFor(Lettuce, UserInput(location, t, h, 2.0, light, 1.0, 1.0));
      && p.tiers == 6
      && SeedsPerTier(Lettuce, 1.0) == 25
      && p.totalSeeds == 150
      && p.waterPerDay == 4.8
  {
    assert Tiers(2.0) == 6;
  }

  /** The basil record for 2 m of height on one square metre: 6 tiers,
      40 seeds per tier, 240 seeds and 3 litres a day. */
  lemma BasilExample(location: string, t: real, h: real, light: string)
    ensures var p := PlanFor(Basil, UserInput(location, t, h, 2.0, light, 1.0, 1.0));
      && p.tiers == 6
      && SeedsPerTier(Basil, 1.0) == 40
      && p.totalSeeds == 240
      && p.waterPerDay == 3.0
  {
    assert Tiers(2.0) == 6;
  }

  /** `Math.sqrt(10000 / per_sqm)`, the spacing between plants in
      centimetres, stated as a relation since the model has no square root. */
  predicate IsSpacing(cm: real, c: Crop) {
    && Profile(c).seedsPerSqm > 0
    && cm >= 0.0
    && cm * cm == 10000.0 / Profile(c).seedsPerSqm as real
  }

  /** The relation determines the spacing: it has at most one solution. */
  lemma SpacingUnique(c: Crop, a: real, b: real)
    requires IsSpacing(a, c) && IsSpacing(b, c)
    ensures a == b
  {
    SquareInjective(a, b);
  }

  /** Lettuce, sown 25 per square metre, is spaced 20 cm apart. */
  lemma LettuceSpacing()
    ensures IsSpacing(20.0, Lettuce)
    ensures forall cm :: IsSpacing(cm, Lettuce) ==> cm == 20.0
  {
    forall cm | IsSpacing(cm, Lettuce) ensures cm == 20.0 {
      SpacingUnique(Lettuce, cm, 20.0);
    }
  }

  lemma AtLeastOnce(s: int, t: int)
    requires s >= 1 && t >= 0
    ensures s * t >= t
  {
    assert s * t == (s - 1) * t + t;
  }

  lemma DivideProduct(s: int, t: int)
    requires t > 0
    ensures ((s * t) as real) / (t as real) == s as real
  {
    assert (s * t) as real == s as real * t as real;
  }

  lemma SquareStrictlyMonotone(x: real, y: real)
    requires 0.0 <= x < y
    ensures x * x < y * y
  {
    var d := y - x;
    assert y * y == x * x + 2.0 * x * d + d * d;
    assert d * d > 0.0;
    assert x * d >= 0.0;
  }

  lemma SquareInjective(a: real, b: real)
    requires 0.0 <= a && 0.0 <= b && a * a == b * b
    ensures a == b
  {
    if a < b {
      SquareStrictlyMonotone(a, b);
    } else if b < a {
      SquareStrictlyMonotone(b, a);
    }
  }
}

=== FILE: selector.dfy ===
/** Crop selection: the zone's crops in stored order, narrowed to the
    crops that grow under artificial light when the light source is
    exactly one of the two artificial-light labels, cut to the first three. */
module Selector {
  import opened FarmData
  import opened Sequences

  const NaturalLabel: string := "Natural sunlight"
  const LedLabel: string := "LED grow lights"
  const FluorescentLabel: string := "Fluorescent lights"
  const MixedLabel: string := "Mixed (natural + artificial)"

  /** How many crops are recommended at most. */
  const MaxRecommended: nat := 3

  /** The light-source test is exact string equality, not a substring match. */
  predicate ArtificialOnly(lightSource: string) {
    lightSource == LedLabel || lightSource == FluorescentLabel
  }

  /** The crop grows under artificial light. */
  predicate GrowsUnderLamps(c: Crop) {
    Profile(c).artificial
  }

  /** The crops of `crops` that grow under artificial light, in order. */
  function ArtificialCapable(crops: seq<Crop>): (r: seq<Crop>)
    ensures IsSubsequence(r, crops)
    ensures forall c :: c in r <==> c in crops && Profile(c).artificial
  {
    FilterIsSubsequence(crops, GrowsUnderLamps);
    Filter(crops, GrowsUnderLamps)
  }

  /** The filter keeps every occurrence of an artificial-light crop and
      none of a daylight crop. */
  lemma ArtificialCapableCounts(crops: seq<Crop>)
    ensures forall c ::
              multiset(ArtificialCapable(crops))[c] == if Profile(c).artificial then multiset(crops)[c] else 0
  {
    FilterCounts(crops, GrowsUnderLamps);
  }

  /** The candidate list before the cut to three. */
  function Eligible(zone: Zone, lightSource: string): seq<Crop> {
    if ArtificialOnly(lightSource) then ArtificialCapable(ZoneTable(zone).crops)
    else ZoneTable(zone).crops
  }

  /** The recommended crops for a zone and a light source. */
  function Recommend(zone: Zone, lightSource: string): (r: seq<Crop>)
    ensures |r| <= MaxRecommended
    ensures r <= Eligible(zone, lightSource)
    ensures |r| == MaxRecommended || r == Eligible(zone, lightSource)
    ensures IsSubsequence(r, ZoneTable(zone).crops)
    ensures ArtificialOnly(lightSource) ==> forall c :: c in r ==> Profile(c).artificial
    ensures !ArtificialOnly(lightSource) ==> r <= ZoneTable(zone).crops
  {
    var eligible := Eligible(zone, lightSource);
    var r := if |eligible| <= MaxRecommended then eligible else eligible[..MaxRecommended];
    PrefixIsSubsequence(r, eligible);
    if ArtificialOnly(lightSource) then
      SubsequenceTransitive(r, eligible, ZoneTable(zone).crops);
      SubsequenceMembers(r, eligible);
      r
    else
      r
  }

  /** The candidate list of every zone starts with the zone's first three
      crops, whatever the light source. */
  lemma EligibleStartsWithLeadingCrops(zone: Zone, lightSource: string)
    ensures |Eligible(zone, lightSource)| >= MaxRecommended
    ensures Eligible(zone, lightSource)[..MaxRecommended] == ZoneTable(zone).crops[..MaxRecommended]
  {
    LeadingCropsAreArtificial(zone);
    if ArtificialOnly(lightSource) {
      FilterKeepsLeadingRun(ZoneTable(zone).crops, GrowsUnderLamps, MaxRecommended);
    }
  }

  /** With the stored tables the light source never changes the choice:
      every zone and every light source yield exactly the first three
      crops of the zone's list. */
  lemma RecommendIgnoresLightSource(zone: Zone, lightSource: string)
    ensures |Recommend(zone, lightSource)| == MaxRecommended
    ensures Recommend(zone, lightSource) == ZoneTable(zone).crops[..MaxRecommended]
  {
    EligibleStartsWithLeadingCrops(zone, lightSource);
  }

  /** The crops recommended in each zone, whatever the light source. */
  lemma RecommendExamples(zone: Zone, lightSource: string)
    ensures Recommend(zone, lightSource) ==
      match zone
      case Tropical => [Basil, Kale, Mint]
      case Arid => [Rosemary, Thyme, Sage]
      case Temperate => [Strawberries, Lettuce, Spinach]
      case Cold => [Kale, Spinach, Lettuce]
  {
    RecommendIgnoresLightSource(zone, lightSource);
    match zone
    case Tropical =>
    case Arid =>
    case Temperate =>
    case Cold =>
  }

  /** LED light in the arid zone yields rosemary, thyme and sage, and never
      bell peppers, which need daylight. */
  lemma AridUnderLed()
    ensures Recommend(Arid, LedLabel) == [Rosemary, Thyme, Sage]
    ensures BellPeppers !in Recommend(Arid, LedLabel)
  {
    RecommendExamples(Arid, LedLabel);
  }

  /** Only the two exact labels filter; the other menu entries and near
      misses such as a bare "LED" do not. */
  lemma ArtificialOnlyExact()
    ensures ArtificialOnly(LedLabel) && ArtificialOnly(FluorescentLabel)
    ensures !ArtificialOnly(NaturalLabel) && !ArtificialOnly(MixedLabel)
    ensures !ArtificialOnly("LED") && !ArtificialOnly("led grow lights")
  {
  }
}

=== FILE: sequences.dfy ===
/** Order-preserving subsequences, used to state that selecting and
    filtering crops never reorders a zone's list. */
module Sequences {

  /** `a` can be obtained from `b` by deleting elements, keeping order. */
  predicate IsSubsequence<T(==)>(a: seq<T>, b: seq<T>)
    decreases |b|
  {
    || a == []
    || (&& b != []
        && ((a[0] == b[0] && IsSubsequence(a[1..], b[1..])) || IsSubsequence(a, b[1..])))
  }

  /** Every element of a subsequence occurs in the larger sequence. */
  lemma {:induction false} SubsequenceMembers<T>(a: seq<T>, b: seq<T>)
    requires IsSubsequence(a, b)
    ensures forall x :: x in a ==> x in b
    decreases |b|
  {
    if a != [] {
      if a[0] == b[0] && IsSubsequence(a[1..], b[1..]) {
        SubsequenceMembers(a[1..], b[1..]);
        assert forall x :: x in a ==> x == a[0] || x in a[1..];
      } else {
        SubsequenceMembers(a, b[1..]);
      }
    }
  }

  /** A prefix is a subsequence. */
  lemma {:induction false} PrefixIsSubsequence<T>(a: seq<T>, b: seq<T>)
    requires a <= b
    ensures IsSubsequence(a, b)
    decreases |b|
  {
    if a != [] {
      assert a[0] == b[0];
      assert a[1..] <= b[1..];
      PrefixIsSubsequence(a[1..], b[1..]);
    }
  }

  /** Deleting elements twice is deleting elements once. */
  lemma {:induction false} SubsequenceTransitive<T>(a: seq<T>, b: seq<T>, c: seq<T>)
    requires IsSubsequence(a, b) && IsSubsequence(b, c)
    ensures IsSubsequence(a, c)
    decreases |c|
  {
    if a != [] {
      assert b != [] && c != [];
      if IsSubsequence(b, c[1..]) {
        SubsequenceTransitive(a, b, c[1..]);
      } else {
        assert b[0] == c[0] && IsSubsequence(b[1..], c[1..]);
        if a[0] == b[0] && IsSubsequence(a[1..], b[1..]) {
          SubsequenceTransitive(a[1..], b[1..], c[1..]);
        } else {
          SubsequenceTransitive(a, b[1..], c[1..]);
        }
      }
    }
  }

  /** The elements of `s` that satisfy `keep`, in order (`Array.prototype.filter`). */
  function Filter<T(!new)>(s: seq<T>, keep: T -> bool): (r: seq<T>)
    ensures forall x :: x in r <==> x in s && keep(x)
  {
    if s == [] then []
    else
      var rest := Filter(s[1..], keep);
      assert forall x :: x in s <==> x == s[0] || x in s[1..];
      if keep(s[0]) then [s[0]] + rest else rest
  }

  /** Filtering keeps every occurrence of a kept element and none of a
      dropped one. */
  lemma {:induction false} FilterCounts<T(!new)>(s: seq<T>, keep: T -> bool)
    ensures forall x :: multiset(Filter(s, keep))[x] == if keep(x) then multiset(s)[x] else 0
  {
    if s != [] {
      FilterCounts(s[1..], keep);
      assert s == [s[0]] + s[1..];
      assert multiset(s) == multiset([s[0]]) + multiset(s[1..]);
    }
  }

  /** Filtering keeps the order of what it keeps. */
  lemma {:induction false} FilterIsSubsequence<T(!new)>(s: seq<T>, keep: T -> bool)
    ensures IsSubsequence(Filter(s, keep), s)
  {
    if s != [] {
      var rest := Filter(s[1..], keep);
      FilterIsSubsequence(s[1..], keep);
      if keep(s[0]) {
        assert ([s[0]] + rest)[1..] == rest;
      }
    }
  }

  /** Filtering keeps a leading run of kept elements in place. */
  lemma {:induction false} FilterKeepsLeadingRun<T(!new)>(s: seq<T>, keep: T -> bool, k: nat)
    requires k <= |s|
    requires forall i :: 0 <= i < k ==> keep(s[i])
    ensures k <= |Filter(s, keep)|
    ensures Filter(s, keep)[..k] == s[..k]
  {
    if k > 0 {
      var t := s[1..];
      FilterKeepsLeadingRun(t, keep, k - 1);
      assert Filter(s, keep) == [s[0]] + Filter(t, keep);
      assert s[..k] == [s[0]] + t[..k - 1];
    }
  }

  /** `s` without its leading run of elements satisfying `drop`. */
  function TrimStart<T>(s: seq<T>, drop: T -> bool): (r: seq<T>)
    ensures |r| <= |s| && r == s[|s| - |r|..]
    ensures forall i :: 0 <= i < |s| - |r| ==> drop(s[i])
    ensures r == [] || !drop(r[0])
  {
    if s != [] && drop(s[0]) then
      var r := TrimStart(s[1..], drop);
      assert forall i :: 1 <= i < |s| - |r| ==> s[i] == s[1..][i - 1];
      r
    else s
  }

  /** `s` without its trailing run of elements satisfying `drop`. */
  function TrimEnd<T>(s: seq<T>, drop: T -> bool): (r: seq<T>)
    ensures r <= s
    ensures forall i :: |r| <= i < |s| ==> drop(s[i])
    ensures r == [] || !drop(r[|r| - 1])
  {
    if s != [] && drop(s[|s| - 1]) then
      var r := TrimEnd(s[..|s| - 1], drop);
      assert forall i :: |r| <= i < |s| - 1 ==> s[i] == s[..|s| - 1][i];
      r
    else s
  }

  /** `s` without its leading and trailing runs of elements satisfying
      `drop`: empty exactly when every element satisfies `drop`, and
      otherwise neither starting nor ending with such an element. */
  function Trim<T>(s: seq<T>, drop: T -> bool): (r: seq<T>)
    ensures r <= TrimStart(s, drop)
    ensures forall i :: |r| <= i < |TrimStart(s, drop)| ==> drop(TrimStart(s, drop)[i])
    ensures r == [] <==> forall i :: 0 <= i < |s| ==> drop(s[i])
    ensures r != [] ==> !drop(r[0]) && !drop(r[|r| - 1])
  {
    var t := TrimStart(s, drop);
    var r := TrimEnd(t, drop);
    assert t == [] ==> r == [];
    assert t != [] ==> s[|s| - |t|] == t[0] && r[0] == t[0];
    r
  }
}

=== FILE: wrappers.dfy ===
/** The optional value used for the source's `undefined` lookups
    (a missing object key, `Array.prototype.find` without a match). */
module Wrappers {

  datatype Option<+T> = None | Some(value: T) {

    /** The value when present, otherwise the given default
        (the source's `x || fallback`). */
    function GetOr(default: T): T {
      match this
      case Some(v) => v
      case None => default
    }
  }
}
